=== FILE: README.md ===
# TUPark server core in Dafny

A model of the three pieces of `server.js` that carry real logic, as pure
functions over immutable values, with their properties proved.

- **Login lockout** (`LoginGuard`). The `/login` handler keeps, per client
  address, a failure count and a lock end time in the in-memory object
  `loginAttempts`. An attempt from an address whose lock ends after `now` is
  refused with the time left in whole seconds, split into minutes and
  seconds. A successful login deletes the address's entry. A failed one
  creates `{count: 0, lockUntil: null}` if needed and adds one. At three
  failures or more it locks the address for 300 000 ms. Below three it
  reports `3 - count` attempts remaining. The end of a lock does not clear
  the count, so the next failure after a lock locks again at once. Time is
  a natural number of milliseconds, as `Date.now()` gives it. The
  credential check (user lookup plus bcrypt) is a boolean input.
- **Activity log retention** (`AuditLog`). `logActivity` inserts a row under
  the next auto-increment id. Only when the insert succeeds does it run a
  cleanup that deletes every row whose id is not among the 100 largest. The
  cleanup is modelled as that query is written: keep a row when fewer than
  100 rows have a larger id. It is then proved equal to "the last 100 rows".
  Whether each query succeeds is an input.
- **Spot updates** (`Spots`). When the request's status is exactly
  `occupied` (a case-sensitive `===`), `/api/update-spot` checks four things
  before it writes the row. The plate must match
  `^[A-Z]{3}[- ]?\d{3,4}$`. The vehicle type must be one of `Car`,
  `Motorcycle`, `Van` or `Others`. The plate must be at most 15 characters.
  No other slot may already be occupied by the same plate. The regular
  expression is stated as its concatenation (`PlatePattern`) and matched by
  a one-pass scanner (`MatchPlate`) proved to accept exactly that language.
  The slot table is a sequence of rows, and a missing request field is SQL
  NULL.
- **Composition** (`Server`). The two handlers with their activity logging.
  The invariants that hold between requests are proved kept.

`Wrappers` holds `Option`/`Result`. `Decimal` renders whole numbers the way
the template literals in the response messages do.

An expired lock does not clear the count (server.js:158, 199-202); only a
successful login deletes an entry (server.js:185), so the first failure
after a lock ends locks the address again (`ExpiredLockRelocks`). The
cleanup keeps the rows with the 100 largest ids (server.js:72).

## Model

| member | source | states |
|---|---|---|
| LoginGuard.Admit | server.js:158-161 | Refused exactly when the address has an entry whose `lockUntil` is set and later than `now`. On refusal the whole seconds left are at least 1 and are the ceiling of the milliseconds left over 1000. They split as `minutes*60 + seconds` with `seconds < 60`. |
| LoginGuard.CeilSeconds | server.js:159 | For a positive number of milliseconds, the result is the least whole number of seconds covering it: at least 1, and `(s-1)*1000 < ms <= s*1000`. |
| LoginGuard.UnlockedIsAdmitted | server.js:158 | An entry with a `null` lock, or with a lock that has ended, is admitted. A `null` compares as 0 and the clock is never negative. |
| LoginGuard.OnSuccess | server.js:185 | A success removes the address's entry and leaves every other entry as it was. Afterwards the address is admitted at every time. |
| LoginGuard.OnFailure | server.js:195-202 | A failure raises the address's count by exactly one from its prior value, where an absent entry counts as 0. At 3 or more the lock becomes `now + 300000`; below 3 the lock stays as it was. Other addresses are untouched. |
| LoginGuard.Login | server.js:153-216 | A refused attempt leaves the bookkeeping unchanged and answers with the minutes and seconds left. A success clears the address. A failure adds one to the count. It answers BLOCKED exactly when the count reaches 3, and otherwise answers `3 - count` remaining, which is 1 or 2. It also gives the activity row to log, with the user named `Unknown` when `adminId` is empty. |
| LoginGuard.Message | server.js:165-213 | Every answer carries a message except a successful login. |
| LoginGuard.FailureMessageTexts | server.js:203-213 | The failure that locks reads "Too many failed attempts. You are BLOCKED for 5 minutes.". The others read "Invalid Account. 2 attempts remaining." and "Invalid Account. 1 attempts remaining.". |
| LoginGuard.LockedMessageText | server.js:159-168 | 299 s left renders as "Account Locked. Too many failed attempts. Try again in 4m 59s.". |
| LoginGuard.LoginPreservesInvariants | server.js:195-202 | Every entry has failed at least once and has a lock exactly when its count is 3 or more. No lock ends more than five minutes after the latest request. Both facts survive every request when the clock does not run backwards. |
| LoginGuard.DenialAtMostFiveMinutes | server.js:158-202 | Under that invariant a refusal never reports more than 300 seconds, so never more than 5m 0s. |
| LoginGuard.ExpiredLockRelocks | server.js:158-206 | An address at 3 failures or more whose lock has ended is admitted. Its next failure answers BLOCKED at once and locks until `now + 300000`, with the count one higher. |
| LoginGuard.FreshStreak | server.js:195-202 | From an address with no entry, k < 3 failures leave count k and no lock. The third failure leaves count 3 and a lock ending five minutes after it. Other addresses are unchanged. |
| LoginGuard.StreakResponses | server.js:199-213 | The k-th failure of a fresh streak answers `3 - k` attempts remaining for k < 3, and the third answers BLOCKED. |
| LoginGuard.ThreeFailuresLock | server.js:158-202 | After three failures from a fresh address, an attempt at time t is refused exactly when t is before the third failure's time plus 300000 ms. |
| LoginGuard.LockoutScenario | server.js:158-206 | Three failures from one fresh address (such as 1.2.3.4) at 1 s, 2 s and 3 s: the third answers BLOCKED. An attempt at 4 s is refused with 4 minutes 59 seconds left. |
| LoginGuard.ResetScenario | server.js:184-213 | Two failures, then a success, removes the entry. The next failure answers 2 attempts remaining, as from a fresh start. |
| Decimal.ShowRoundTrip | server.js:167 | The decimal rendering of a whole number reads back as that number. |
| AuditLog.Insert | server.js:62-64 | The insert appends the row last, under an id larger than every existing id. The other rows are kept in order, and ids stay increasing and below the counter. |
| AuditLog.LogActivity | server.js:59-81 | The table's ids must increase in insertion order, as auto-increment ensures. A failed insert changes nothing and runs no cleanup. A successful insert with a failed cleanup keeps every old row plus the new one. With both queries successful, the table is the newest `min(100, n+1)` rows of the old rows plus the new one. In every case the new row is last. |
| AuditLog.Prune | server.js:68-75 | A row survives the cleanup exactly when it was in the table and fewer than `keep` rows have a larger id. Nothing is added. |
| AuditLog.RankOfRow | server.js:72 | In an id-sorted table, the rows with a larger id than the row at position i are exactly the `n - 1 - i` rows after it. |
| AuditLog.PruneKeepsNewest | server.js:68-75 | Deleting every row outside the 100 largest ids leaves exactly the last `min(100, n)` rows, in order. |
| AuditLog.PruneWithinCapIsNoOp | server.js:68-75 | The cleanup on a table of at most 100 rows deletes nothing. |
| AuditLog.PruneIdempotent | server.js:68-76 | The cleanup leaves at most 100 rows, and a second cleanup deletes nothing more. |
| AuditLog.ReplayKeepsNewest | server.js:64-78 | Start from a table within the cap and make any run of successful calls. The table is then exactly the newest `min(100, total)` rows of the full history, and the counter has advanced once per call. |
| AuditLog.HundredAndFiveAppends | server.js:62-75 | After 105 calls on a fresh table, it holds the rows with ids 6 to 105, in insertion order. Rows 1 to 5 are gone. |
| Spots.PlatePatternLength | server.js:256-268 | Every plate the pattern admits is 6 to 8 characters long, so the "longer than 15" refusal can never fire. |
| Spots.ClassifyNext | server.js:256 | Reading one more character moves the scan's state the way the pattern's prefix classification says it should. |
| Spots.AcceptingIffPattern | server.js:256 | The scan's accepting states are exactly the plates the pattern describes. |
| Spots.MatchPlate | server.js:256-259 | The one-pass scan answers true exactly for strings of three capital letters, an optional `-` or space, and three or four digits. |
| Spots.ParkedElsewhereRows | server.js:270-271 | The duplicate query returns exactly the rows occupied by that plate under a different slot number. It returns none when the slot id is missing, since a comparison with NULL is never true. |
| Spots.CheckOccupy | server.js:255-273 | An occupy request passes exactly when four things hold: the plate is present and matches the pattern, the type is one of the four, the lookup succeeds, and no other slot holds the plate. The first failing check is the one reported: a bad plate, else a bad type (before any query), else a failed lookup. "Too long" is never the answer. A duplicate names a slot that really holds the plate. |
| Spots.ApplyUpdate | server.js:283-284 | Rows whose number equals the request's slot id take the request's status, plate, start time and type. Every other row is unchanged. |
| Spots.SpotRecord | server.js:253-292 | The logged row names the session user, or "Unknown Admin" when there is none. Its action is OCCUPY_SPOT exactly for an occupy request, else RELEASE_SPOT. Its details are "Parked plate (type) at slot" or "Released spot slot", with a missing field printed as "undefined". |
| Spots.UpdateSpot | server.js:251-297 | A refused or failed request changes nothing and logs nothing. A refused occupy reports the check's error. Otherwise the update query decides, and its failure is reported as "update failed". An accepted occupy has a valid plate and type, and the plate is parked at no other slot. |
| Spots.UpdateKeepsPlatesUnique | server.js:255-284 | If no plate occupies two slot numbers before a request, none does after it, where "occupies" means a status of exactly "occupied" (see "## Left out" on collation). |
| Spots.DuplicateRefused | server.js:270-273 | A valid occupy request whose plate occupies another slot is refused as already parked, and the table is unchanged. |
| Server.HandleLogin | server.js:153-216 | The login step comes with exactly one `logActivity` call. When its insert succeeds, its row is the last in the table, the counter advances by one, and in front of it stand every earlier row (failed cleanup) or the newest 99 of them (successful cleanup). A failed insert leaves the table unchanged. |
| Server.HandleUpdateSpot | server.js:282-295 | A row is logged only after a successful update. When its insert succeeds it is the last in the table, after every earlier row or the newest 99 of them as the cleanup went. A refused or failed update, or a failed insert, leaves the table unchanged. |
| Server.HandlersKeepGood | server.js:153-297 | Both handlers keep the lockout invariants, the id order of the log and the uniqueness of occupied plates. |
| Server.LoggingNeverChangesOutcome | server.js:64-79 | The success or failure of the logging queries never changes the answer, the lockout bookkeeping or the slot table. |
| Server.LoggedRequestCapsLog | server.js:68-78 | A login whose activity row is inserted and cleaned up leaves at most 100 rows, whatever the table held before. |

## Left out

- HTTP plumbing is not modelled: Express routing, static pages, sessions and cookies (server.js:23-36, 86-151, 219-249). `req.ip` and `req.session.username` are plain string inputs.
- The `express-rate-limit` middleware (server.js:11-18) is a library whose code is not part of this model.
- The user query and bcrypt comparison (server.js:171-182) are one boolean input, because both are external libraries.
- `if (err) throw err` on the user query (server.js:174) would crash the process and lose all lockout state. Process crashes are not modelled.
- The MySQL tables are modelled as sequences of rows, with these simplifications:
  - the `timestamp` column the database fills is omitted;
  - string comparisons are exact equality, so collation (case and trailing spaces) is ignored;
  - the row the duplicate query lists first is taken to be the first in table order.
- Concurrency is not modelled. Requests are handled one at a time, so the race on `loginAttempts[ip].count` and interleaved insert/cleanup pairs of concurrent `logActivity` calls are left out.
- Request fields are strings or absent. JSON numbers, `null` and other types are not distinguished, and plate length is counted in characters, not UTF-16 units.
- The JavaScript number type is modelled as an unbounded `nat`. Its 2^53 limit could never be reached by the failure count.
- Spots.UpdateKeepsPlatesUnique: the invariant counts only rows whose status is exactly "occupied". The checks run only when the request's status is `=== 'occupied'` (server.js:255), while the duplicate query compares `status = "occupied"` under the column's collation (server.js:270), which in MySQL's defaults ignores case. A request with status "Occupied" skips every check, yet the query would then see its row as occupied, so uniqueness as that query sees it is not promised. The schema is not part of this model, so the collation is unknown.
- HTTP status codes are not modelled. `/login` answers "Invalid Account" with status 401 (server.js:210), and `LoginGuard.Response` keeps the answer without the status. `/api/update-spot` answers a failed UPDATE with status 500 (server.js:285), and the model keeps only the error kind `UpdateFailed`.
- The texts of the `/api/update-spot` error messages (server.js:258-273) are not modelled; `Spots.SpotError` keeps which check failed.
- AuditLog.LogActivity: a failed insert leaves the auto-increment counter unchanged. InnoDB may use up an id on a failed INSERT. Ids still only grow, and no property here depends on which ids are skipped.
- The logging made by session timeout, logout and report deletion (server.js:144-151, 219-235, 344-365) uses the same `AuditLog.LogActivity`. Those handlers themselves are not modelled.
- The slot listing `/api/spots` (server.js:237-242) and the log listing `/api/logs` (server.js:244-249) are single SELECT queries whose results are passed through unchanged, so there is no logic to model.
- Problem reports (server.js:304-374) read and write the `problem_reports` table, which plays no part in lockout, logging or slot updates. Only the activity row that report deletion writes goes through `AuditLog.LogActivity`.
- `/api/hash-password` (server.js:376-381) touches no table. It only calls `bcrypt.hash`, an external library whose code is not part of this model.

=== FILE: audit_log.dfy ===
/** The activity log written by `logActivity`: every insert into the
    `activity_logs` table receives the next auto-increment id, and a
    successful insert is followed by a cleanup that deletes every row
    whose id is not among the `MaxEntries` largest. */
module AuditLog {

  /** Number of rows the cleanup query keeps (`LIMIT 100`). */
  const MaxEntries: nat := 100

  /** The action categories the server records. */
  datatype Action =
    | Login
    | LoginFailed
    | LoginBlocked
    | Logout
    | SessionTimeout
    | OccupySpot
    | ReleaseSpot
    | DeleteReport

  /** The columns one call of `logActivity` supplies. */
  datatype Record = Record(username: string, action: Action, details: string, ip: string)

  /** A stored row: the record under its auto-increment id. */
  datatype Entry = Entry(id: nat, record: Record)

  /** The table's rows in insertion order, and the id the next insert receives. */
  datatype Store = Store(rows: seq<Entry>, nextId: nat)

  /** The table as created: no rows, and auto-increment starting at 1. */
  const Empty: Store := Store([], 1)

  ghost predicate Increasing(rows: seq<Entry>) {
    forall i, j :: 0 <= i < j < |rows| ==> rows[i].id < rows[j].id
  }

  /** Ids grow with insertion order and stay below the auto-increment counter. */
  ghost predicate Valid(st: Store) {
    && Increasing(st.rows)
    && 1 <= st.nextId
    && (forall i :: 0 <= i < |st.rows| ==> 1 <= st.rows[i].id < st.nextId)
  }

  function Min(a: nat, b: nat): nat {
    if a <= b then a else b
  }

  /** The last `k` rows (all of them when there are fewer): the reference
      meaning of "the most recent k entries". */
  function Newest(rows: seq<Entry>, k: nat): seq<Entry> {
    rows[|rows| - Min(k, |rows|)..]
  }

  /** How many rows carry an id larger than `id`. */
  function CountNewer(rows: seq<Entry>, id: nat): (n: nat)
    ensures n <= |rows|
  {
    if |rows| == 0 then 0
    else (if rows[0].id > id then 1 else 0) + CountNewer(rows[1..], id)
  }

  /** The rows of `xs` that are among the `keep` largest ids of `all`, in order. */
  function Survivors(all: seq<Entry>, xs: seq<Entry>, keep: nat): (r: seq<Entry>)
    ensures |r| <= |xs|
  {
    if |xs| == 0 then []
    else
      var rest := Survivors(all, xs[1..], keep);
      if CountNewer(all, xs[0].id) < keep then [xs[0]] + rest else rest
  }

  /** The cleanup query: delete every row whose id is not among the
      `keep` largest ids. */
  function Prune(rows: seq<Entry>, keep: nat): (r: seq<Entry>)
    ensures |r| <= |rows|
    ensures forall e :: e in r <==> e in rows && CountNewer(rows, e.id) < keep
  {
    SurvivorsMembers(rows, rows, keep);
    Survivors(rows, rows, keep)
  }

  lemma {:induction false} SurvivorsMembers(all: seq<Entry>, xs: seq<Entry>, keep: nat)
    ensures forall e :: e in Survivors(all, xs, keep) <==> e in xs && CountNewer(all, e.id) < keep
  {
    if |xs| > 0 {
      SurvivorsMembers(all, xs[1..], keep);
      assert xs == [xs[0]] + xs[1..];
    }
  }

  lemma {:induction false} CountNewerOfSorted(rows: seq<Entry>, j: nat, id: nat)
    requires Increasing(rows)
    requires j <= |rows|
    requires forall i :: 0 <= i < j ==> rows[i].id <= id
    requires forall i :: j <= i < |rows| ==> rows[i].id > id
    ensures CountNewer(rows, id) == |rows| - j
  {
    if |rows| > 0 {
      if j == 0 {
        CountNewerOfSorted(rows[1..], 0, id);
      } else {
        CountNewerOfSorted(rows[1..], j - 1, id);
      }
    }
  }

  /** In an id-sorted table the row at position `i` has exactly the rows after it as newer. */
  lemma RankOfRow(rows: seq<Entry>, i: nat)
    requires Increasing(rows)
    requires i < |rows|
    ensures CountNewer(rows, rows[i].id) == |rows| - 1 - i
  {
    CountNewerOfSorted(rows, i + 1, rows[i].id);
  }

  lemma {:induction false} SurvivorsOfSuffix(all: seq<Entry>, j: nat, keep: nat)
    requires Increasing(all)
    requires j <= |all|
    ensures Survivors(all, all[j..], keep) == all[if j < |all| - Min(keep, |all|) then |all| - Min(keep, |all|) else j..]
    decreases |all| - j
  {
    if j < |all| {
      assert all[j..][1..] == all[j + 1..];
      SurvivorsOfSuffix(all, j + 1, keep);
      RankOfRow(all, j);
      if CountNewer(all, all[j].id) < keep {
        assert all[j..] == [all[j]] + all[j + 1..];
      }
    }
  }

  /** The cleanup query leaves exactly the newest `keep` rows, in order. */
  lemma PruneKeepsNewest(rows: seq<Entry>, keep: nat)
    requires Increasing(rows)
    ensures Prune(rows, keep) == Newest(rows, keep)
  {
    assert rows[0..] == rows;
    SurvivorsOfSuffix(rows, 0, keep);
  }

  lemma {:induction false} CountNewerOfMember(rows: seq<Entry>, e: Entry)
    requires e in rows
    ensures CountNewer(rows, e.id) < |rows|
  {
    if rows[0] != e {
      CountNewerOfMember(rows[1..], e);
    } else {
      assert CountNewer(rows[1..], e.id) <= |rows| - 1;
    }
  }

  lemma {:induction false} SurvivorsAll(all: seq<Entry>, xs: seq<Entry>, keep: nat)
    requires |all| <= keep
    requires forall i :: 0 <= i < |xs| ==> xs[i] in all
    ensures Survivors(all, xs, keep) == xs
  {
    if |xs| > 0 {
      CountNewerOfMember(all, xs[0]);
      SurvivorsAll(all, xs[1..], keep);
      assert xs == [xs[0]] + xs[1..];
    }
  }

  /** Cleanup on a table already within the cap deletes nothing, whatever
      the order of its ids. */
  lemma PruneWithinCapIsNoOp(rows: seq<Entry>, keep: nat)
    requires |rows| <= keep
    ensures Prune(rows, keep) == rows
  {
    SurvivorsAll(rows, rows, keep);
  }

  /** Running the cleanup twice deletes nothing the first run left. */
  lemma PruneIdempotent(rows: seq<Entry>, keep: nat)
    requires Increasing(rows)
    ensures Prune(Prune(rows, keep), keep) == Prune(rows, keep)
    ensures |Prune(rows, keep)| <= keep
  {
    PruneKeepsNewest(rows, keep);
    PruneWithinCapIsNoOp(Newest(rows, keep), keep);
  }

  /** The row the insert adds. */
  function NewEntry(st: Store, rec: Record): Entry {
    Entry(st.nextId, rec)
  }

  /** `INSERT INTO activity_logs`: the row goes last, under the next id. */
  function Insert(st: Store, rec: Record): (r: Store)
    requires Valid(st)
    ensures Valid(r)
    ensures |r.rows| == |st.rows| + 1 && r.rows[..|st.rows|] == st.rows
    ensures r.rows[|st.rows|].record == rec
    ensures forall i :: 0 <= i < |st.rows| ==> st.rows[i].id < r.rows[|st.rows|].id
  {
    Store(st.rows + [NewEntry(st, rec)], st.nextId + 1)
  }

  /** One call of `logActivity`. `insertOk` and `cleanupOk` are the outcomes
      the database reports for the two queries; the cleanup runs only after
      a successful insert, and its failure is only reported, never retried. */
  function LogActivity(st: Store, rec: Record, insertOk: bool, cleanupOk: bool): (r: Store)
    requires Valid(st)
    ensures Valid(r)
    ensures !insertOk ==> r == st
    ensures insertOk && !cleanupOk ==> r.rows == st.rows + [NewEntry(st, rec)]
    ensures insertOk && cleanupOk ==> r.rows == Newest(st.rows + [NewEntry(st, rec)], MaxEntries)
    ensures insertOk && cleanupOk ==> |r.rows| == Min(MaxEntries, |st.rows| + 1)
    ensures insertOk ==> |r.rows| > 0 && r.rows[|r.rows| - 1] == NewEntry(st, rec)
    ensures r.nextId == if insertOk then st.nextId + 1 else st.nextId
  {
    if !insertOk then st
    else
      var inserted := Insert(st, rec);
      if !cleanupOk then inserted
      else
        PruneKeepsNewest(inserted.rows, MaxEntries);
        NewestKeepsValid(inserted, MaxEntries);
        inserted.(rows := Prune(inserted.rows, MaxEntries))
  }

  /** Keeping the newest `k > 0` rows of a valid table leaves a valid table
      that still ends with the same row. */
  lemma NewestKeepsValid(st: Store, k: nat)
    requires Valid(st) && k > 0 && |st.rows| > 0
    ensures Valid(st.(rows := Newest(st.rows, k)))
    ensures |Newest(st.rows, k)| == Min(k, |st.rows|) > 0
    ensures Newest(st.rows, k)[|Newest(st.rows, k)| - 1] == st.rows[|st.rows| - 1]
  {
  }

  /** A run of `logActivity` calls whose queries all succeed. */
  function Replay(st: Store, recs: seq<Record>): (r: Store)
    requires Valid(st)
    ensures Valid(r)
  {
    if |recs| == 0 then st
    else LogActivity(Replay(st, recs[..|recs| - 1]), recs[|recs| - 1], true, true)
  }

  /** The rows that `recs` receive when inserted from auto-increment value `start`. */
  function Numbered(start: nat, recs: seq<Record>): seq<Entry> {
    seq(|recs|, i requires 0 <= i < |recs| => Entry(start + i, recs[i]))
  }

  lemma ReplayStep(st: Store, recs: seq<Record>)
    requires Valid(st) && |recs| > 0
    ensures Replay(st, recs).rows
      == Newest(Replay(st, recs[..|recs| - 1]).rows + [Entry(Replay(st, recs[..|recs| - 1]).nextId, recs[|recs| - 1])], MaxEntries)
    ensures Replay(st, recs).nextId == Replay(st, recs[..|recs| - 1]).nextId + 1
  {
  }

  lemma HistoryStep(rows: seq<Entry>, start: nat, recs: seq<Record>, e: Entry)
    requires |recs| > 0
    requires e == Entry(start + |recs| - 1, recs[|recs| - 1])
    ensures rows + Numbered(start, recs) == (rows + Numbered(start, recs[..|recs| - 1])) + [e]
  {
  }

  /** Pruning after each append keeps the same rows as one prune of the
      whole history. */
  lemma PruneChain(prev: seq<Entry>, history: seq<Entry>, e: Entry, cur: seq<Entry>, full: seq<Entry>)
    requires prev == Newest(history, MaxEntries)
    requires cur == Newest(prev + [e], MaxEntries)
    requires full == history + [e]
    ensures cur == Newest(full, MaxEntries)
  {
  }

  /** After any run of successful calls on a table within the cap, the table
      holds exactly the newest `MaxEntries` rows of everything ever inserted. */
  lemma {:induction false} ReplayKeepsNewest(st: Store, recs: seq<Record>)
    requires Valid(st) && |st.rows| <= MaxEntries
    ensures Replay(st, recs).rows == Newest(st.rows + Numbered(st.nextId, recs), MaxEntries)
    ensures Replay(st, recs).nextId == st.nextId + |recs|
  {
    if |recs| == 0 {
      assert st.rows + Numbered(st.nextId, recs) == st.rows;
    } else {
      var init := recs[..|recs| - 1];
      ReplayKeepsNewest(st, init);
      ReplayStep(st, recs);
      var e := Entry(Replay(st, init).nextId, recs[|recs| - 1]);
      HistoryStep(st.rows, st.nextId, recs, e);
      PruneChain(Replay(st, init).rows, st.rows + Numbered(st.nextId, init), e,
        Replay(st, recs).rows, st.rows + Numbered(st.nextId, recs));
    }
  }

  /** 105 successful calls on a fresh table leave rows 6 to 105, in order;
      the first five inserted rows are gone. */
  lemma HundredAndFiveAppends(recs: seq<Record>)
    requires |recs| == 105
    ensures |Replay(Empty, recs).rows| == 100
    ensures forall i :: 0 <= i < 100 ==> Replay(Empty, recs).rows[i] == Entry(i + 6, recs[i + 5])
    ensures forall i :: 0 <= i < 100 ==> Replay(Empty, recs).rows[i].id > 5
  {
    ReplayKeepsNewest(Empty, recs);
    assert Empty.rows + Numbered(1, recs) == Numbered(1, recs);
    NewestOfNumbered(recs, Replay(Empty, recs).rows);
  }

  lemma NewestOfNumbered(recs: seq<Record>, rows: seq<Entry>)
    requires |recs| == 105
    requires rows == Newest(Numbered(1, recs), MaxEntries)
    ensures |rows| == 100
    ensures forall i :: 0 <= i < 100 ==> rows[i] == Entry(i + 6, recs[i + 5])
  {
  }
}

=== FILE: decimal.dfy ===
/** Rendering of non-negative integers as decimal digits, as a JavaScript
    template literal does for the whole numbers interpolated into the
    server's response messages. */
module Decimal {

  predicate IsDigit(c: char) {
    '0' <= c <= '9'
  }

  function DigitChar(d: nat): (c: char)
    requires d < 10
    ensures IsDigit(c)
  {
    ['0', '1', '2', '3', '4', '5', '6', '7', '8', '9'][d]
  }

  function DigitValue(c: char): (d: nat)
    requires IsDigit(c)
    ensures d < 10
  {
    (c as int) - ('0' as int)
  }

  /** The numeric value of a string of decimal digits, most significant first. */
  function ValueOf(s: string): nat
    requires forall i :: 0 <= i < |s| ==> IsDigit(s[i])
  {
    if |s| == 0 then 0 else 10 * ValueOf(s[..|s| - 1]) + DigitValue(s[|s| - 1])
  }

  /** Shortest decimal rendering of `n`: digits only, and no leading zero. */
  function Show(n: nat): (s: string)
    ensures 1 <= |s|
    ensures forall i :: 0 <= i < |s| ==> IsDigit(s[i])
    ensures |s| > 1 ==> s[0] != '0'
  {
    if n < 10 then [DigitChar(n)] else Show(n / 10) + [DigitChar(n % 10)]
  }

  /** Reading the rendering back gives the number that was rendered. */
  lemma {:induction false} ShowRoundTrip(n: nat)
    ensures ValueOf(Show(n)) == n
  {
    var s := Show(n);
    if n < 10 {
      assert s[..0] == [];
    } else {
      ShowRoundTrip(n / 10);
      assert s[..|s| - 1] == Show(n / 10);
    }
  }
}

=== FILE: login_guard.dfy ===
/** The per-address login lockout kept by the `/login` handler in the
    in-memory object `loginAttempts`: each address that has failed maps to
    its failure count and the time its lock ends. */
module LoginGuard {
  import opened Wrappers
  import AuditLog
  import Decimal

  /** Failures that lock an address (`count >= 3`). */
  const Threshold: nat := 3

  /** Lock length in milliseconds (`now + 300000`, five minutes). */
  const LockoutMs: nat := 300000

  /** Milliseconds since the epoch, as `Date.now()` reports them. */
  type Time = nat

  /** The client address the handler keys its bookkeeping by. */
  type Ip = string

  /** One address's bookkeeping: `{ count, lockUntil }`, where a `lockUntil`
      of `null` is `None`. */
  datatype Attempt = Attempt(count: nat, lockUntil: Option<Time>)

  type Attempts = map<Ip, Attempt>

  /** Outcome of the admission test at the top of the handler. */
  datatype Admission =
    | Admitted
    | Denied(timeLeft: nat, minutes: nat, seconds: nat)

  /** What the handler answers. */
  datatype Response =
    | Locked(minutes: nat, seconds: nat)   // an attempt while locked
    | LoggedIn                             // credentials accepted
    | Blocked                              // the failure that set the lock
    | InvalidAccount(remaining: nat)       // a failure below the threshold

  /** The handler's effect: the new bookkeeping, the answer, and the row it
      hands to the activity log. */
  datatype Step = Step(attempts: Attempts, response: Response, activity: AuditLog.Record)

  /** `lockUntil > now` compares a JavaScript `null` as the number 0. */
  function LockValue(a: Attempt): int {
    match a.lockUntil
    case None => 0
    case Some(t) => t
  }

  /** The address is under a lock that has not yet ended. */
  predicate IsLocked(attempts: Attempts, ip: Ip, now: Time) {
    ip in attempts && attempts[ip].lockUntil.Some? && attempts[ip].lockUntil.value > now
  }

  /** `Math.ceil(ms / 1000)` for a positive number of milliseconds. */
  function CeilSeconds(ms: int): (s: int)
    requires ms > 0
    ensures s >= 1
    ensures (s - 1) * 1000 < ms <= s * 1000
  {
    (ms + 999) / 1000
  }

  /** The admission test (`loginAttempts[ip] && loginAttempts[ip].lockUntil > now`)
      and, on denial, the whole seconds left split into minutes and seconds. */
  function Admit(attempts: Attempts, ip: Ip, now: Time): (r: Admission)
    ensures r.Denied? <==> IsLocked(attempts, ip, now)
    ensures r.Denied? ==> r.timeLeft >= 1 && r.seconds < 60 && r.minutes * 60 + r.seconds == r.timeLeft
    ensures r.Denied? ==> (r.timeLeft - 1) * 1000 < attempts[ip].lockUntil.value - now <= r.timeLeft * 1000
  {
    if ip in attempts && LockValue(attempts[ip]) > now then
      var timeLeft := CeilSeconds(LockValue(attempts[ip]) - now);
      Denied(timeLeft, timeLeft / 60, timeLeft % 60)
    else
      Admitted
  }

  /** A successful login: `delete loginAttempts[ip]`. */
  function OnSuccess(attempts: Attempts, ip: Ip): (r: Attempts)
    ensures ip !in r
    ensures forall k :: k != ip ==> (k in r <==> k in attempts)
    ensures forall k :: k in r ==> r[k] == attempts[k]
    ensures forall now: Time :: Admit(r, ip, now) == Admitted
  {
    attempts - {ip}
  }

  /** The count an address has before a failure (an absent entry is created as 0). */
  function PriorCount(attempts: Attempts, ip: Ip): nat {
    if ip in attempts then attempts[ip].count else 0
  }

  /** A failed login: create `{count: 0, lockUntil: null}` if absent, count
      the failure, and at the threshold lock until `now + 300000`. */
  function OnFailure(attempts: Attempts, ip: Ip, now: Time): (r: Attempts)
    ensures ip in r && r[ip].count == PriorCount(attempts, ip) + 1
    ensures r[ip].count >= Threshold ==> r[ip].lockUntil == Some(now + LockoutMs)
    ensures r[ip].count < Threshold ==> r[ip].lockUntil == (if ip in attempts then attempts[ip].lockUntil else None)
    ensures forall k :: k != ip ==> (k in r <==> k in attempts)
    ensures forall k :: k in r && k != ip ==> r[k] == attempts[k]
  {
    var prior := if ip in attempts then attempts[ip] else Attempt(0, None);
    var counted := prior.(count := prior.count + 1);
    var updated := if counted.count >= Threshold then counted.(lockUntil := Some(now + LockoutMs)) else counted;
    attempts[ip := updated]
  }

  /** `adminId || 'Unknown'`: the name logged for blocked and failed attempts. */
  function NameOrUnknown(adminId: string): string {
    if adminId == "" then "Unknown" else adminId
  }

  /** One request to `/login` at time `now` from `ip` for `adminId`;
      `credentialsOk` is whether a user of that name exists and the password
      matches its hash. */
  function Login(attempts: Attempts, ip: Ip, adminId: string, credentialsOk: bool, now: Time): (r: Step)
    // A locked address is refused before anything changes.
    ensures IsLocked(attempts, ip, now) ==>
      && r.attempts == attempts
      && r.response == Locked(Admit(attempts, ip, now).minutes, Admit(attempts, ip, now).seconds)
      && r.activity == AuditLog.Record(NameOrUnknown(adminId), AuditLog.LoginBlocked, "Blocked login attempt", ip)
    // Accepted credentials clear the address and nothing else.
    ensures !IsLocked(attempts, ip, now) && credentialsOk ==>
      && r.attempts == OnSuccess(attempts, ip)
      && r.response == LoggedIn
      && r.activity == AuditLog.Record(adminId, AuditLog.Login, "Admin logged in successfully", ip)
    // Rejected credentials add exactly one failure; the lock is set exactly at the threshold.
    ensures !IsLocked(attempts, ip, now) && !credentialsOk ==>
      && r.attempts == OnFailure(attempts, ip, now)
      && r.activity == AuditLog.Record(NameOrUnknown(adminId), AuditLog.LoginFailed, "Failed login attempt", ip)
      && (r.response == Blocked <==> PriorCount(attempts, ip) + 1 >= Threshold)
      && (r.response != Blocked ==> r.response == InvalidAccount(Threshold - PriorCount(attempts, ip) - 1))
      && (r.response.InvalidAccount? ==> r.response.remaining in {1, 2})
  {
    match Admit(attempts, ip, now)
    case Denied(_, minutes, seconds) =>
      Step(attempts, Locked(minutes, seconds),
        AuditLog.Record(NameOrUnknown(adminId), AuditLog.LoginBlocked, "Blocked login attempt", ip))
    case Admitted =>
      if credentialsOk then
        Step(OnSuccess(attempts, ip), LoggedIn,
          AuditLog.Record(adminId, AuditLog.Login, "Admin logged in successfully", ip))
      else
        var next := OnFailure(attempts, ip, now);
        var failed := AuditLog.Record(NameOrUnknown(adminId), AuditLog.LoginFailed, "Failed login attempt", ip);
        if next[ip].count >= Threshold then Step(next, Blocked, failed)
        else Step(next, InvalidAccount(Threshold - next[ip].count), failed)
  }

  /** The JSON `message` of each answer (a successful login carries none). */
  function Message(resp: Response): (m: Option<string>)
    ensures m.None? <==> resp.LoggedIn?
  {
    match resp
    case Locked(m, s) =>
      Some("Account Locked. Too many failed attempts. Try again in " + Decimal.Show(m) + "m " + Decimal.Show(s) + "s.")
    case LoggedIn => None
    case Blocked => Some("Too many failed attempts. You are BLOCKED for 5 minutes.")
    case InvalidAccount(n) =>
      Some("Invalid Account. " + Decimal.Show(n) + " attempts remaining.")
  }

  // ---------------------------------------------------------------------------
  // Invariants of the bookkeeping

  /** Every stored entry has failed at least once, and carries a lock
      exactly when it has reached the threshold. */
  ghost predicate WellFormed(attempts: Attempts) {
    forall k :: k in attempts ==>
      attempts[k].count >= 1 && (attempts[k].lockUntil.Some? <==> attempts[k].count >= Threshold)
  }

  /** No lock ends later than five minutes after `now`. */
  ghost predicate LocksWithin(attempts: Attempts, now: Time) {
    forall k :: k in attempts && attempts[k].lockUntil.Some? ==> attempts[k].lockUntil.value <= now + LockoutMs
  }

  /** Every request keeps the bookkeeping well formed, and with a clock that
      does not run backwards every lock ends at most five minutes ahead. */
  lemma LoginPreservesInvariants(attempts: Attempts, ip: Ip, adminId: string, credentialsOk: bool, before: Time, now: Time)
    requires WellFormed(attempts) && LocksWithin(attempts, before) && before <= now
    ensures WellFormed(Login(attempts, ip, adminId, credentialsOk, now).attempts)
    ensures LocksWithin(Login(attempts, ip, adminId, credentialsOk, now).attempts, now)
  {
  }

  /** Under that invariant a denial never reports more than five minutes. */
  lemma DenialAtMostFiveMinutes(attempts: Attempts, ip: Ip, now: Time)
    requires LocksWithin(attempts, now)
    requires IsLocked(attempts, ip, now)
    ensures Admit(attempts, ip, now).timeLeft <= 300
    ensures Admit(attempts, ip, now).minutes <= 5
    ensures Admit(attempts, ip, now).minutes == 5 ==> Admit(attempts, ip, now).seconds == 0
  {
  }

  /** An entry without a lock, or whose lock has ended, is admitted: a
      `null` `lockUntil` compares as 0 and `Date.now()` is never negative. */
  lemma UnlockedIsAdmitted(attempts: Attempts, ip: Ip, now: Time)
    requires ip in attempts
    requires attempts[ip].lockUntil.None? || attempts[ip].lockUntil.value <= now
    ensures Admit(attempts, ip, now) == Admitted
  {
  }

  /** The end of a lock does not clear the count: an address at or past the
      threshold whose lock has ended is admitted, and its next failure locks
      it again for five minutes at once. */
  lemma ExpiredLockRelocks(attempts: Attempts, ip: Ip, adminId: string, now: Time)
    requires ip in attempts && attempts[ip].count >= Threshold
    requires attempts[ip].lockUntil.Some? && attempts[ip].lockUntil.value <= now
    ensures Admit(attempts, ip, now) == Admitted
    ensures Login(attempts, ip, adminId, false, now).response == Blocked
    ensures Login(attempts, ip, adminId, false, now).attempts[ip]
      == Attempt(attempts[ip].count + 1, Some(now + LockoutMs))
  {
  }

  // ---------------------------------------------------------------------------
  // Streaks of failures

  /** The bookkeeping after failed logins from `ip` at the times `nows`, in order. */
  function FailAll(attempts: Attempts, ip: Ip, nows: seq<Time>): Attempts {
    if |nows| == 0 then attempts
    else Login(FailAll(attempts, ip, nows[..|nows| - 1]), ip, "", false, nows[|nows| - 1]).attempts
  }

  /** From an address with no entry (never failed, or cleared by a success),
      fewer than three failures leave that many on the count and no lock;
      the third locks until five minutes after it. Other addresses are untouched. */
  lemma {:induction false} FreshStreak(attempts: Attempts, ip: Ip, nows: seq<Time>)
    requires ip !in attempts
    requires 1 <= |nows| <= Threshold
    ensures ip in FailAll(attempts, ip, nows)
    ensures |nows| < Threshold ==> FailAll(attempts, ip, nows)[ip] == Attempt(|nows|, None)
    ensures |nows| == Threshold ==> FailAll(attempts, ip, nows)[ip] == Attempt(Threshold, Some(nows[Threshold - 1] + LockoutMs))
    ensures forall k :: k != ip ==> (k in FailAll(attempts, ip, nows) <==> k in attempts)
    ensures forall k :: k in attempts && k != ip ==> FailAll(attempts, ip, nows)[k] == attempts[k]
  {
    var init := nows[..|nows| - 1];
    if |init| == 0 {
      assert FailAll(attempts, ip, init) == attempts;
    } else {
      FreshStreak(attempts, ip, init);
    }
  }

  /** The k-th failure of a fresh streak (k < 3) answers "3 - k attempts
      remaining"; the third answers BLOCKED. */
  lemma StreakResponses(attempts: Attempts, ip: Ip, adminId: string, nows: seq<Time>, now: Time)
    requires ip !in attempts
    requires |nows| < Threshold
    ensures |nows| + 1 < Threshold ==>
      Login(FailAll(attempts, ip, nows), ip, adminId, false, now).response == InvalidAccount(Threshold - |nows| - 1)
    ensures |nows| + 1 == Threshold ==>
      Login(FailAll(attempts, ip, nows), ip, adminId, false, now).response == Blocked
  {
  }

  /** After three failures in a row from a fresh address, every attempt is
      refused until the lock ends, and admitted from then on. */
  lemma ThreeFailuresLock(attempts: Attempts, ip: Ip, nows: seq<Time>, later: Time)
    requires ip !in attempts
    requires |nows| == Threshold
    ensures IsLocked(FailAll(attempts, ip, nows), ip, later) <==> later < nows[Threshold - 1] + LockoutMs
    ensures Admit(FailAll(attempts, ip, nows), ip, later).Denied? <==> later < nows[Threshold - 1] + LockoutMs
  {
    FreshStreak(attempts, ip, nows);
  }

  // ---------------------------------------------------------------------------
  // Worked cases

  /** Three failures from one address (1.2.3.4, say) one second apart: the
      third is BLOCKED, and a fourth attempt one second later is refused
      with 4m 59s left. */
  lemma LockoutScenario(attempts: Attempts, ip: Ip)
    requires ip !in attempts
    ensures Login(FailAll(attempts, ip, [1000, 2000]), ip, "admin", false, 3000).response == Blocked
    ensures Login(FailAll(attempts, ip, [1000, 2000, 3000]), ip, "admin", false, 4000).response == Locked(4, 59)
  {
    StreakResponses(attempts, ip, "admin", [1000, 2000], 3000);
    FreshStreak(attempts, ip, [1000, 2000, 3000]);
    var locked := FailAll(attempts, ip, [1000, 2000, 3000]);
    assert locked[ip] == Attempt(3, Some(303000));
    assert CeilSeconds(299000) == 299;
    assert Admit(locked, ip, 4000) == Denied(299, 4, 59);
  }

  /** The text of that refusal. */
  lemma LockedMessageText()
    ensures Message(Locked(4, 59)) == Some("Account Locked. Too many failed attempts. Try again in 4m 59s.")
  {
    assert Decimal.Show(4) == "4";
    assert Decimal.Show(59) == "59";
    var prefix := "Account Locked. Too many failed attempts. Try again in ";
    assert prefix + "4" + "m " + "59" + "s." == prefix + "4m 59s.";
    assert prefix + "4m 59s." == "Account Locked. Too many failed attempts. Try again in 4m 59s.";
  }

  /** The texts of the two answers to a failure. */
  lemma FailureMessageTexts()
    ensures Message(Blocked) == Some("Too many failed attempts. You are BLOCKED for 5 minutes.")
    ensures Message(InvalidAccount(2)) == Some("Invalid Account. 2 attempts remaining.")
    ensures Message(InvalidAccount(1)) == Some("Invalid Account. 1 attempts remaining.")
  {
    assert Decimal.Show(2) == "2";
    assert Decimal.Show(1) == "1";
    var prefix := "Invalid Account. ";
    assert prefix + "2" + " attempts remaining." == "Invalid Account. 2 attempts remaining.";
    assert prefix + "1" + " attempts remaining." == "Invalid Account. 1 attempts remaining.";
  }

  /** Two failures, then a success, then a failure: the count starts over
      and the answer is "2 attempts remaining". */
  lemma ResetScenario(attempts: Attempts, ip: Ip, adminId: string, t1: Time, t2: Time, t3: Time, t4: Time)
    requires ip !in attempts
    ensures var cleared := Login(FailAll(attempts, ip, [t1, t2]), ip, adminId, true, t3).attempts;
      && ip !in cleared
      && Login(cleared, ip, adminId, false, t4).response == InvalidAccount(2)
  {
    FreshStreak(attempts, ip, [t1, t2]);
  }
}

=== FILE: server.dfy ===
/** The server's state across requests, and the two handlers with their
    activity logging wired in. Requests are handled one at a time. */
module Server {
  import opened Wrappers
  import AuditLog
  import LoginGuard
  import Spots

  /** The lockout bookkeeping (in memory), the `activity_logs` table and the `slots` table. */
  datatype State = State(attempts: LoginGuard.Attempts, log: AuditLog.Store, slots: seq<Spots.Slot>)

  /** What the database reports for the two queries of one `logActivity` call. */
  datatype LogOutcome = LogOutcome(insertOk: bool, cleanupOk: bool)

  /** The invariants that hold between requests once the clock reads `now`. */
  ghost predicate Good(s: State, now: LoginGuard.Time) {
    && LoginGuard.WellFormed(s.attempts)
    && LoginGuard.LocksWithin(s.attempts, now)
    && AuditLog.Valid(s.log)
    && Spots.UniquePlates(s.slots)
  }

  function Logged(s: State, rec: AuditLog.Record, out: LogOutcome): (r: AuditLog.Store)
    requires AuditLog.Valid(s.log)
    ensures AuditLog.Valid(r)
  {
    AuditLog.LogActivity(s.log, rec, out.insertOk, out.cleanupOk)
  }

  /** The rows that stay in front of a newly inserted row: all of them when the
      cleanup fails, otherwise the newest `MaxEntries - 1`, so that with the new
      row the table holds at most `MaxEntries`. */
  function EarlierRows(log: AuditLog.Store, out: LogOutcome): seq<AuditLog.Entry> {
    if out.cleanupOk then AuditLog.Newest(log.rows, AuditLog.MaxEntries - 1) else log.rows
  }

  /** A `/login` request: the guard's step, then one activity row. */
  function HandleLogin(s: State, ip: LoginGuard.Ip, adminId: string, credentialsOk: bool, now: LoginGuard.Time, out: LogOutcome)
    : (r: (State, LoginGuard.Response))
    requires AuditLog.Valid(s.log)
    ensures r.0.slots == s.slots
    ensures r.0.attempts == LoginGuard.Login(s.attempts, ip, adminId, credentialsOk, now).attempts
    ensures r.1 == LoginGuard.Login(s.attempts, ip, adminId, credentialsOk, now).response
    ensures out.insertOk ==>
      |r.0.log.rows| > 0 && r.0.log.rows[|r.0.log.rows| - 1].record == LoginGuard.Login(s.attempts, ip, adminId, credentialsOk, now).activity
    ensures out.insertOk ==>
      |r.0.log.rows| > 0 && r.0.log.rows[..|r.0.log.rows| - 1] == EarlierRows(s.log, out)
    ensures r.0.log.nextId == if out.insertOk then s.log.nextId + 1 else s.log.nextId
    ensures !out.insertOk ==> r.0.log == s.log
  {
    var step := LoginGuard.Login(s.attempts, ip, adminId, credentialsOk, now);
    (State(step.attempts, Logged(s, step.activity, out), s.slots), step.response)
  }

  /** An `/api/update-spot` request: the handler's step, then an activity
      row only if the update went through. */
  function HandleUpdateSpot(s: State, user: string, ip: string, req: Spots.SpotRequest, lookupOk: bool, updateOk: bool, out: LogOutcome)
    : (r: (State, Result<(), Spots.SpotError>))
    requires AuditLog.Valid(s.log)
    ensures r.0.attempts == s.attempts
    ensures r.0.slots == Spots.UpdateSpot(s.slots, user, ip, req, lookupOk, updateOk).slots
    ensures r.1 == Spots.UpdateSpot(s.slots, user, ip, req, lookupOk, updateOk).result
    ensures r.1.Failure? ==> r.0.log == s.log
    ensures !(r.1.Success? && out.insertOk) ==> r.0.log == s.log
    ensures r.1.Success? && out.insertOk ==>
      |r.0.log.rows| > 0 && r.0.log.rows[|r.0.log.rows| - 1].record == Spots.SpotRecord(user, ip, req)
    ensures r.1.Success? && out.insertOk ==>
      |r.0.log.rows| > 0 && r.0.log.rows[..|r.0.log.rows| - 1] == EarlierRows(s.log, out)
    ensures r.1.Success? ==> r.0.log.nextId == if out.insertOk then s.log.nextId + 1 else s.log.nextId
  {
    var step := Spots.UpdateSpot(s.slots, user, ip, req, lookupOk, updateOk);
    match step.activity
    case None => (s.(slots := step.slots), step.result)
    case Some(rec) => (s.(slots := step.slots, log := Logged(s, rec, out)), step.result)
  }

  /** Both handlers keep every invariant, with a clock that does not run backwards. */
  lemma HandlersKeepGood(s: State, before: LoginGuard.Time, now: LoginGuard.Time,
                         ip: string, name: string, credentialsOk: bool,
                         req: Spots.SpotRequest, lookupOk: bool, updateOk: bool, out: LogOutcome)
    requires Good(s, before) && before <= now
    ensures Good(HandleLogin(s, ip, name, credentialsOk, now, out).0, now)
    ensures Good(HandleUpdateSpot(s, name, ip, req, lookupOk, updateOk, out).0, now)
  {
    LoginGuard.LoginPreservesInvariants(s.attempts, ip, name, credentialsOk, before, now);
    Spots.UpdateKeepsPlatesUnique(s.slots, name, ip, req, lookupOk, updateOk);
    assert LoginGuard.LocksWithin(s.attempts, now);
  }

  /** Logging is best effort: what the database does with the activity row
      never changes the answer, the lockout bookkeeping or the slots. */
  lemma LoggingNeverChangesOutcome(s: State, ip: string, name: string, credentialsOk: bool, now: LoginGuard.Time,
                                   req: Spots.SpotRequest, lookupOk: bool, updateOk: bool, out1: LogOutcome, out2: LogOutcome)
    requires AuditLog.Valid(s.log)
    ensures HandleLogin(s, ip, name, credentialsOk, now, out1).1 == HandleLogin(s, ip, name, credentialsOk, now, out2).1
    ensures HandleLogin(s, ip, name, credentialsOk, now, out1).0.attempts
         == HandleLogin(s, ip, name, credentialsOk, now, out2).0.attempts
    ensures HandleUpdateSpot(s, name, ip, req, lookupOk, updateOk, out1).1
         == HandleUpdateSpot(s, name, ip, req, lookupOk, updateOk, out2).1
    ensures HandleUpdateSpot(s, name, ip, req, lookupOk, updateOk, out1).0.slots
         == HandleUpdateSpot(s, name, ip, req, lookupOk, updateOk, out2).0.slots
  {
  }

  /** A request whose activity row is inserted and cleaned up leaves at most
      `MaxEntries` rows, whatever the table held before. */
  lemma LoggedRequestCapsLog(s: State, ip: string, name: string, credentialsOk: bool, now: LoginGuard.Time)
    requires AuditLog.Valid(s.log)
    ensures |HandleLogin(s, ip, name, credentialsOk, now, LogOutcome(true, true)).0.log.rows| <= AuditLog.MaxEntries
  {
  }
}

=== FILE: spots.dfy ===
/** The `/api/update-spot` handler: input checks before a slot is marked
    occupied, the duplicate-plate lookup, and the row update itself. */
module Spots {
  import opened Wrappers
  import AuditLog
  import Decimal

  // ---------------------------------------------------------------------------
  // The plate pattern `^[A-Z]{3}[- ]?\d{3,4}$`

  predicate IsUpper(c: char) {
    'A' <= c <= 'Z'
  }

  predicate IsSeparator(c: char) {
    c == '-' || c == ' '
  }

  predicate AllUpper(s: string) {
    forall i :: 0 <= i < |s| ==> IsUpper(s[i])
  }

  predicate AllDigits(s: string) {
    forall i :: 0 <= i < |s| ==> Decimal.IsDigit(s[i])
  }

  /** `[A-Z]{3}` */
  predicate ThreeLetters(s: string) {
    |s| == 3 && AllUpper(s)
  }

  /** `\d{3,4}` */
  predicate ThreeOrFourDigits(s: string) {
    3 <= |s| <= 4 && AllDigits(s)
  }

  /** The whole pattern, read as its concatenation: three letters, an
      optional `-` or space, then three or four digits, and nothing else. */
  predicate PlatePattern(p: string) {
    && |p| >= 3
    && ThreeLetters(p[..3])
    && (|| ThreeOrFourDigits(p[3..])
        || (|p| >= 4 && IsSeparator(p[3]) && ThreeOrFourDigits(p[4..])))
  }

  /** Every plate the pattern admits is 6 to 8 characters long. */
  lemma PlatePatternLength(p: string)
    requires PlatePattern(p)
    ensures 6 <= |p| <= 8
  {
  }

  /** States of a left-to-right scan for the pattern: letters read so far,
      digits read so far (after the letters and any separator), or failed. */
  datatype Phase = Letters(n: nat) | Digits(n: nat) | Dead

  function Next(ph: Phase, c: char): Phase {
    match ph
    case Letters(n) =>
      if n < 3 then (if IsUpper(c) then Letters(n + 1) else Dead)
      else if IsSeparator(c) then Digits(0)
      else if Decimal.IsDigit(c) then Digits(1)
      else Dead
    case Digits(n) =>
      if n < 4 && Decimal.IsDigit(c) then Digits(n + 1) else Dead
    case Dead => Dead
  }

  predicate Accepting(ph: Phase) {
    ph.Digits? && ph.n >= 3
  }

  /** The phase a prefix `w` of the input should leave the scan in. */
  function Classify(w: string): Phase {
    if |w| <= 3 then (if AllUpper(w) then Letters(|w|) else Dead)
    else if !AllUpper(w[..3]) then Dead
    else if AllDigits(w[3..]) && |w| - 3 <= 4 then Digits(|w| - 3)
    else if IsSeparator(w[3]) && AllDigits(w[4..]) && |w| - 4 <= 4 then Digits(|w| - 4)
    else Dead
  }

  lemma AllDigitsAppend(s: string, c: char)
    ensures AllDigits(s + [c]) <==> AllDigits(s) && Decimal.IsDigit(c)
  {
    assert forall i :: 0 <= i < |s| ==> (s + [c])[i] == s[i];
    assert (s + [c])[|s|] == c;
  }

  /** One more character moves the classification exactly as the scan does. */
  lemma ClassifyNext(w: string, c: char)
    ensures Classify(w + [c]) == Next(Classify(w), c)
  {
    var w' := w + [c];
    if |w| >= 3 {
      assert w'[..3] == w[..3];
      assert w'[3..] == w[3..] + [c];
    }
    if |w| >= 4 {
      assert w'[3] == w[3];
      assert w'[4..] == w[4..] + [c];
      assert w[3..][0] == w[3];
      AllDigitsAppend(w[3..], c);
      AllDigitsAppend(w[4..], c);
    }
    if |w| < 3 {
      assert forall i :: 0 <= i < |w| ==> w'[i] == w[i];
      assert w'[|w|] == c;
    } else if |w| == 3 {
      assert w[..3] == w;
      assert w'[3..] == [c];
      assert w'[3] == c;
      assert AllDigits(w'[4..]);
    }
  }

  /** The scan accepts exactly the strings the pattern describes. */
  lemma AcceptingIffPattern(p: string)
    ensures Accepting(Classify(p)) <==> PlatePattern(p)
  {
  }

  /** `plateRegex.test(p)`: a single left-to-right scan of the plate. */
  method MatchPlate(p: string) returns (ok: bool)
    ensures ok <==> PlatePattern(p)
  {
    var ph := Letters(0);
    var i := 0;
    while i < |p|
      invariant 0 <= i <= |p|
      invariant ph == Classify(p[..i])
    {
      ClassifyNext(p[..i], p[i]);
      assert p[..i + 1] == p[..i] + [p[i]];
      ph := Next(ph, p[i]);
      i := i + 1;
    }
    assert p[..i] == p;
    AcceptingIffPattern(p);
    ok := Accepting(ph);
  }

  // ---------------------------------------------------------------------------
  // The slot table and the update request

  /** The accepted `vehicle_type` values. */
  const VehicleTypes: seq<string> := ["Car", "Motorcycle", "Van", "Others"]

  /** Longest plate the handler accepts (`plate_number.length > 15` is refused). */
  const MaxPlateLength: nat := 15

  /** A row of `slots`; absent values are SQL NULL. */
  datatype Slot = Slot(
    number: string,
    status: Option<string>,
    plate: Option<string>,
    startTime: Option<string>,
    vehicleType: Option<string>)

  /** The request body; an absent field is `undefined`, stored as NULL. */
  datatype SpotRequest = SpotRequest(
    slotId: Option<string>,
    status: Option<string>,
    plate: Option<string>,
    parkTime: Option<string>,
    vehicleType: Option<string>)

  datatype SpotError =
    | InvalidPlate                               // missing or not of the pattern
    | InvalidVehicleType                         // not one of the four types
    | PlateTooLong                               // more than 15 characters
    | LookupFailed                               // the duplicate query failed
    | AlreadyParked(plate: string, at: string)   // occupied at another slot
    | UpdateFailed                               // the UPDATE query failed

  predicate Occupies(s: Slot) {
    s.status == Some("occupied")
  }

  predicate IsOccupy(req: SpotRequest) {
    req.status == Some("occupied")
  }

  /** A row the duplicate query (`plate_number = ? AND status = "occupied"
      AND slot_number != ?`) returns. A missing slot id is NULL, and a
      comparison with NULL is never true. */
  predicate ParkedElsewhere(s: Slot, plate: string, slotId: Option<string>) {
    Occupies(s) && s.plate == Some(plate) && slotId.Some? && s.number != slotId.value
  }

  /** The rows the duplicate query returns, in table order. */
  function ParkedElsewhereRows(slots: seq<Slot>, plate: string, slotId: Option<string>): (r: seq<Slot>)
    ensures forall i :: 0 <= i < |r| ==> r[i] in slots && ParkedElsewhere(r[i], plate, slotId)
    ensures forall i :: 0 <= i < |slots| && ParkedElsewhere(slots[i], plate, slotId) ==> slots[i] in r
  {
    if |slots| == 0 then []
    else
      var rest := ParkedElsewhereRows(slots[1..], plate, slotId);
      assert forall i :: 1 <= i < |slots| ==> slots[i] == slots[1..][i - 1];
      if ParkedElsewhere(slots[0], plate, slotId) then [slots[0]] + rest else rest
  }

  /** The checks made before a slot is marked occupied, in the handler's
      order; `lookupOk` is whether the duplicate query succeeded. */
  function CheckOccupy(slots: seq<Slot>, req: SpotRequest, lookupOk: bool): (r: Option<SpotError>)
    ensures r == None <==>
      && req.plate.Some? && PlatePattern(req.plate.value)
      && req.vehicleType.Some? && req.vehicleType.value in VehicleTypes
      && lookupOk
      && (forall i :: 0 <= i < |slots| ==> !ParkedElsewhere(slots[i], req.plate.value, req.slotId))
    ensures r == Some(InvalidPlate) <==> req.plate.None? || !PlatePattern(req.plate.value)
    ensures r == Some(InvalidVehicleType) <==>
      && req.plate.Some? && PlatePattern(req.plate.value)
      && (req.vehicleType.None? || req.vehicleType.value !in VehicleTypes)
    ensures r == Some(LookupFailed) <==>
      && req.plate.Some? && PlatePattern(req.plate.value)
      && req.vehicleType.Some? && req.vehicleType.value in VehicleTypes
      && !lookupOk
    ensures r != Some(PlateTooLong)
    ensures r.Some? && r.value.AlreadyParked? ==>
      && req.plate == Some(r.value.plate)
      && exists i :: 0 <= i < |slots| && slots[i].number == r.value.at && ParkedElsewhere(slots[i], r.value.plate, req.slotId)
  {
    if req.plate.None? || req.plate.value == "" || !PlatePattern(req.plate.value) then Some(InvalidPlate)
    else if req.vehicleType.None? || req.vehicleType.value !in VehicleTypes then Some(InvalidVehicleType)
    else if |req.plate.value| > MaxPlateLength then
      PlatePatternLength(req.plate.value);
      assert false;
      Some(PlateTooLong)
    else if !lookupOk then Some(LookupFailed)
    else
      var found := ParkedElsewhereRows(slots, req.plate.value, req.slotId);
      if |found| > 0 then Some(AlreadyParked(req.plate.value, found[0].number))
      else None
  }

  /** `UPDATE slots SET status, plate_number, start_time, vehicle_type WHERE
      slot_number = ?`: every row of that number takes the request's values. */
  function ApplyUpdate(slots: seq<Slot>, req: SpotRequest): (r: seq<Slot>)
    ensures |r| == |slots|
    ensures forall i :: 0 <= i < |r| ==> r[i].number == slots[i].number
    ensures forall i :: 0 <= i < |r| && req.slotId == Some(slots[i].number) ==>
      r[i] == Slot(slots[i].number, req.status, req.plate, req.parkTime, req.vehicleType)
    ensures forall i :: 0 <= i < |r| && req.slotId != Some(slots[i].number) ==> r[i] == slots[i]
  {
    seq(|slots|, i requires 0 <= i < |slots| =>
      if req.slotId == Some(slots[i].number)
      then Slot(slots[i].number, req.status, req.plate, req.parkTime, req.vehicleType)
      else slots[i])
  }

  /** `${value}` of a request field: an absent one prints as "undefined". */
  function Text(v: Option<string>): string {
    v.GetOr("undefined")
  }

  /** The activity row written after a successful update. */
  function SpotRecord(user: string, ip: string, req: SpotRequest): (r: AuditLog.Record)
    ensures r.ip == ip
    ensures r.username == (if user == "" then "Unknown Admin" else user)
    ensures r.action == AuditLog.OccupySpot <==> IsOccupy(req)
    ensures r.action == AuditLog.OccupySpot || r.action == AuditLog.ReleaseSpot
    ensures IsOccupy(req) ==> r.details == "Parked " + Text(req.plate) + " (" + Text(req.vehicleType) + ") at " + Text(req.slotId)
    ensures !IsOccupy(req) ==> r.details == "Released spot " + Text(req.slotId)
  {
    var name := if user == "" then "Unknown Admin" else user;
    if IsOccupy(req) then
      AuditLog.Record(name, AuditLog.OccupySpot,
        "Parked " + Text(req.plate) + " (" + Text(req.vehicleType) + ") at " + Text(req.slotId), ip)
    else
      AuditLog.Record(name, AuditLog.ReleaseSpot, "Released spot " + Text(req.slotId), ip)
  }

  /** The handler's effect: the new table, the answer, and the activity row
      to log (present exactly when the update went through). */
  datatype SpotStep = SpotStep(slots: seq<Slot>, result: Result<(), SpotError>, activity: Option<AuditLog.Record>)

  /** One request to `/api/update-spot` by session user `user` from `ip`;
      `lookupOk` and `updateOk` are the outcomes of the two queries. */
  function UpdateSpot(slots: seq<Slot>, user: string, ip: string, req: SpotRequest, lookupOk: bool, updateOk: bool): (r: SpotStep)
    // A refused occupy, or a failed update, changes nothing and logs nothing.
    ensures r.result.Failure? ==> r.slots == slots && r.activity == None
    ensures IsOccupy(req) && CheckOccupy(slots, req, lookupOk).Some? ==>
      r.result == Failure(CheckOccupy(slots, req, lookupOk).value)
    // Otherwise the outcome is the update query's.
    ensures (!IsOccupy(req) || CheckOccupy(slots, req, lookupOk) == None) ==>
      (r.result.Success? <==> updateOk)
    ensures (!IsOccupy(req) || CheckOccupy(slots, req, lookupOk) == None) && !updateOk ==>
      r.result == Failure(UpdateFailed)
    ensures r.result.Success? ==>
      && r.slots == ApplyUpdate(slots, req)
      && r.activity == Some(SpotRecord(user, ip, req))
    // An accepted occupy names a valid plate and type, parked nowhere else.
    ensures r.result.Success? && IsOccupy(req) ==>
      && req.plate.Some? && PlatePattern(req.plate.value)
      && req.vehicleType.Some? && req.vehicleType.value in VehicleTypes
      && forall i :: 0 <= i < |slots| ==> !ParkedElsewhere(slots[i], req.plate.value, req.slotId)
  {
    var check := if IsOccupy(req) then CheckOccupy(slots, req, lookupOk) else None;
    if check.Some? then SpotStep(slots, Failure(check.value), None)
    else if !updateOk then SpotStep(slots, Failure(UpdateFailed), None)
    else SpotStep(ApplyUpdate(slots, req), Success(()), Some(SpotRecord(user, ip, req)))
  }

  /** No plate is occupied at two different slot numbers. */
  ghost predicate UniquePlates(slots: seq<Slot>) {
    forall i, j ::
      0 <= i < |slots| && 0 <= j < |slots| && Occupies(slots[i]) && Occupies(slots[j])
      && slots[i].plate.Some? && slots[i].plate == slots[j].plate
      ==> slots[i].number == slots[j].number
  }

  /** Requests handled one at a time never park one plate at two slots. */
  lemma UpdateKeepsPlatesUnique(slots: seq<Slot>, user: string, ip: string, req: SpotRequest, lookupOk: bool, updateOk: bool)
    requires UniquePlates(slots)
    ensures UniquePlates(UpdateSpot(slots, user, ip, req, lookupOk, updateOk).slots)
  {
  }

  /** A plate already occupying another slot is refused, whatever else the request says. */
  lemma DuplicateRefused(slots: seq<Slot>, user: string, ip: string, req: SpotRequest, updateOk: bool, k: nat)
    requires IsOccupy(req) && req.plate.Some? && PlatePattern(req.plate.value)
    requires req.vehicleType.Some? && req.vehicleType.value in VehicleTypes
    requires k < |slots| && ParkedElsewhere(slots[k], req.plate.value, req.slotId)
    ensures UpdateSpot(slots, user, ip, req, true, updateOk).result.Failure?
    ensures UpdateSpot(slots, user, ip, req, true, updateOk).result.error.AlreadyParked?
    ensures UpdateSpot(slots, user, ip, req, true, updateOk).slots == slots
  {
  }
}

=== FILE: wrappers.dfy ===
/** Failure-carrying values shared by the modules of the model. */
module Wrappers {

  /** A value that may be absent: a JavaScript `undefined` request field, or SQL NULL. */
  datatype Option<+T> = None | Some(value: T) {

    /** The value if present, otherwise `default`. */
    function GetOr(default: T): T {
      match this
      case Some(v) => v
      case None => default
    }
  }

  /** Either the computed value or the reason the computation was refused. */
  datatype Result<+R, +E> = Success(value: R) | Failure(error: E)
}
